=== FILE: README.md ===
# Minesweeper board engine, modelled in Dafny

This project models the `GamePlay` class of a Vue Minesweeper game. The class
owns a `width` x `height` grid of block records. Each record holds its
coordinates, whether it is revealed, mined or flagged, and the number of mines
next to it. The class mutates the grid in place:

- a left click on a flagged block does nothing;
- the first left click on an unflagged block draws the mines and counts the
  numbers;
- every left click on an unflagged block reveals it, and a block with count 0
  floods its neighbourhood open;
- a right click on an unrevealed block toggles its flag, and on a revealed
  block does nothing;
- `checkGameState`, when called after the first click, announces a win or a
  cheat once every block is revealed or flagged. It decides nothing before the
  mines exist, and nothing in the class calls it.

Two files:

- `board.dfy`, module `Board`, holds the values and the pure queries:
  - the `Block` record (the source's `BlockState`) and the eight-entry
    `Directions` table;
  - `Siblings`, the bounds-checked neighbour lookup (`getSiblings`);
  - `CountIn`, mine counting over a list of positions;
  - the per-block updates that the class applies in place: `Seed` is one step
    of mine drawing, `Numbered` one step of counting, `RightClicked` a flag
    toggle;
  - `Verdict`, the outcome of `checkGameState`.
- `gameplay.dfy`, module `Game`, holds the class `GamePlay`:
  - one `array2<Block>` named `state`, indexed `state[y, x]` as in the source;
  - the flag `mineGenerated`;
  - a method for each operation of the source that changes the grid, proved
    against the functions of `Board`, and the function `CheckGameState`
    for the read-only verdict.

A block reference in the source is named here by its position (x, y).
`Valid()` states that `state[y, x]` records the coordinates (x, y), so a
position and the block it names are interchangeable. `getSiblings` returns
references into the grid, and `expendZero` writes through them. The model
mirrors this: `Siblings` returns positions, and the methods write the grid
cell at each one.

The invariant `Sound()` carries the correctness of the numbers. Before the
first click no block is mined and every count is 0. Afterwards every non-mine
block's count equals the number of its mined siblings, and every mine block's
count is 0. `SoundCounts` restates this as the number of mined grid cells at
distance 1. The constructor establishes `Sound()`, and `OnClick` and
`OnRightClick` keep it.

The predicate `Cleared(p)` says that every sibling of `p` is revealed unless it
is flagged. It is not an invariant. It is a postcondition of the flood fill
(`ExpendZero`, `RevealSibling`), which establishes it for every zero-count
block it starts from or reveals. `OnClick` passes it on for the clicked
block and for every zero-count block its flood fill reveals.

The model follows the code as written:

- On the first click, two separate tests skip any block within one column
  **or** within one row of the click. The area kept free of mines is that
  cross of columns and rows.
- Each drawn block is mined by its own coin flip, so the number of mines
  varies.
- The state is the grid and `mineGenerated`. Nothing else tracks the course
  of a game.
- Clicking a mine still runs the flood fill from it. A mine's count stays 0,
  so its neighbourhood opens.
- `updateNumbers` adds to the existing counts. Its results are right only
  when every count starts at 0, which holds on the first click (`GeneratedSound`).

## Model

| member | source | states |
|---|---|---|
| Board.DirectionsDistinct | src/composables/logic.ts:9-18 | the table lists eight offsets, no two equal, and the negation of each offset is also in the table |
| Board.InDirections | src/composables/logic.ts:9-18 | an offset is in the table exactly when both components lie in [-1, 1] and it is not (0, 0) |
| Board.OffsetAdjacent | src/composables/logic.ts:9-18 | p lies one table offset away from (x, y) exactly when p is a different cell at most 1 away on each axis |
| Board.Shifted | src/composables/logic.ts:58-67 | the map-then-filter over the offsets returns at most one position per offset; a position is returned exactly when it is inside the grid and its offset from the block is in the list |
| Board.ShiftedDistinct | src/composables/logic.ts:58-67 | distinct offsets give distinct positions, so no neighbour is listed twice |
| Board.Siblings | src/composables/logic.ts:56-68 | at most 8 positions, none repeated; a position is returned exactly when it is in bounds and adjacent to the block, hence never the block itself |
| Board.SiblingsSymmetric | src/composables/logic.ts:9-18 | for two in-bounds cells, q is a sibling of p exactly when p is a sibling of q |
| Board.CountIn | src/composables/logic.ts:78-81 | the number of listed positions that hold a mine is at most the length of the list |
| Board.CountInPrefix | src/composables/logic.ts:78-81 | one more sibling visited adds 1 to the count exactly when that sibling holds a mine; this is CountIn's own defining step read at a prefix, the loop-step fact NumberBlock needs, and says nothing beyond CountIn |
| Board.CountInDistinct | src/composables/logic.ts:78-81 | over a list without repeats the count equals the size of the set of listed mined positions |
| Board.NeighbourMineCount | src/composables/logic.ts:73-84 | the mined siblings of (x, y) are counted as the number of mined in-bounds cells adjacent to it |
| Board.NumberedFromZero | src/composables/logic.ts:73-84 | counting from 0, a non-mine block ends up with the number of mined cells adjacent to it |
| Board.Seed | src/composables/logic.ts:42-45 | only the mine bit can change; a block in the band (column within 1 or row within 1 of the click) is kept whole; any other block gets the coin drawn for it |
| Board.Numbered | src/composables/logic.ts:75-81 | only the count can change; a mine block is kept; a non-mine block's count grows by between 0 and 8 |
| Board.RevealStepTransitive | src/composables/logic.ts:94-97 | two rounds of revealing unflagged blocks, keeping every other field, compose into one |
| Board.RightClicked | src/composables/logic.ts:123-126 | a revealed block is unchanged; otherwise only its flag flips |
| Board.RightClickedTwice | src/composables/logic.ts:123-126 | toggling a block's flag twice restores the block |
| Game.GamePlay.SoundCounts | src/composables/logic.ts:73-84 | on a consistent board after the first click, each non-mine block's count is the number of mined cells adjacent to it |
| Game.GamePlay.NumbersKept | src/composables/logic.ts:73-84 | a step that keeps every mine bit and count keeps the mine set and the consistency of the numbers |
| Game.GamePlay.CoveredShrinks | src/composables/logic.ts:94-97 | revealing an unrevealed block, hiding none, strictly shrinks the set of covered blocks, the measure under which the flood fill terminates |
| Game.GamePlay.GeneratedSound | src/composables/logic.ts:110-113 | mines drawn on a board with no mines and all counts 0, then counted, give consistent numbers |
| Game.GamePlay.constructor | src/composables/logic.ts:22-29 | a height x width grid whose block (x, y) records (x, y), is unrevealed, unmined, unflagged and has count 0; no mines generated; the numbers are consistent |
| Game.GamePlay.GenerateMines | src/composables/logic.ts:39-49 | every block becomes its seeded block, numbered against the final mine set; band blocks keep their mine bit; coordinates, revealed and flagged are untouched |
| Game.GamePlay.UpdateNumbers | src/composables/logic.ts:73-84 | the mine set is unchanged and every block becomes its old self numbered against it (a mine block is kept) |
| Game.GamePlay.NumberRow | src/composables/logic.ts:75-83 | every block of row y is numbered against the mine set, and the other rows are unchanged |
| Game.GamePlay.NumberBlock | src/composables/logic.ts:76-81 | the one block is numbered against the mine set by adding 1 per mined sibling, and no other block changes |
| Game.GamePlay.ExpendZero | src/composables/logic.ts:90-100 | terminates; returns with nothing changed when the count is non-zero; only reveals unflagged blocks and keeps every other field; the start block, if its count is 0, and every zero-count block it revealed end with all unflagged siblings revealed |
| Game.GamePlay.RevealSibling | src/composables/logic.ts:93-98 | a sibling already revealed or flagged leaves the whole grid unchanged; otherwise the sibling ends up revealed, with the same reveal-only guarantees as the flood fill |
| Game.GamePlay.MinesOnFirstClick | src/composables/logic.ts:110-113 | mines are drawn only while none exist, then mineGenerated is true; only mine bits and counts change; the numbers stay consistent |
| Game.GamePlay.OnClick | src/composables/logic.ts:106-117 | a flagged block: nothing changes and no boom; otherwise mines exist afterwards, the clicked block is revealed and boom says it is a mine; later clicks keep the mine set and counts; flags never change, revealed blocks stay revealed and only unflagged blocks become revealed; the first click leaves every block's mine bit as seeded, and on a consistent board the first clicked block is never a mine; the flood fill runs on every unflagged click, so a clicked block with count 0 ends with all unflagged siblings revealed, which on a consistent board includes every clicked mine, and so does every zero-count block the click newly reveals; the numbers stay consistent |
| Game.GamePlay.OnRightClick | src/composables/logic.ts:123-126 | the clicked block becomes its right-clicked self, every other block is unchanged, and the numbers stay consistent |
| Game.GamePlay.Rows | src/composables/logic.ts:133 | the flattened first n rows have n * width blocks, and a block is in it exactly when it is some grid cell of those rows |
| Game.GamePlay.CheckGameState | src/composables/logic.ts:131-138 | a verdict exactly when mines exist and every block is revealed or flagged; Cheat exactly when, in addition, some flagged block holds no mine; Win otherwise |

## Left out

- Vue reactivity (`reactive` around the grid, and the `watchEffect` registered in the constructor). The watcher only names `checkGameState` without calling it. `CheckGameState` is a plain function that callers apply to the grid.
- `alert` calls. They become return values: `OnClick` returns `boom`, and `CheckGameState` returns a `Verdict`.
- `Math.random() < 0.2`. Each block's draw is a caller-supplied oracle `flip(x, y)`. The probability 0.2 and floating point are not modelled.
- The optional `mine` and `flagged` fields of `BlockState`. They are booleans starting at false. A block the band skips never gets `mine` set, which reads as false.
- JavaScript numbers are modelled as unbounded integers. Coordinates and counts stay small, so neither floating point nor overflow comes into play.
- Game.GamePlay.ExpendZero: the contract bounds what the flood fill reveals only from one side. It reveals only unflagged blocks, and every zero-count block it starts from or reveals ends cleared. It does not state that every revealed block is reachable from the start through zero-count blocks.
- Game.GamePlay.OnClick: the same gap, inherited from `ExpendZero`. The contract allows the click to reveal any unflagged block. It does not bound the revealed blocks to those reachable from the click through zero-count blocks.

=== FILE: board.dfy ===
/**
 * Pure part of the Minesweeper board engine: the cell record, the table of
 * the eight neighbour directions, the bounds-checked neighbour lookup, mine
 * counting, and the per-cell updates that the GamePlay class applies in place.
 */
module Board {

  /** A grid position (x, y): x is the column, y the row. */
  type Pos = (int, int)

  /**
   * One cell of the grid. `mine` and `flagged` are optional in the source;
   * an unset field reads as false, which is what it is here.
   */
  datatype Block = Block(
    x: int,
    y: int,
    revealed: bool,
    mine: bool,
    flagged: bool,
    adjacentMines: nat)

  /** The outcome `checkGameState` announces: nothing yet, a win, or a cheat. */
  datatype Verdict = Undecided | Win | Cheat

  /** The eight (dx, dy) offsets around a cell, in the source's order. */
  const Directions: seq<Pos> := [(-1, -1), (-1, 0), (-1, 1), (0, 1), (1, 1), (1, 0), (1, -1), (0, -1)]

  predicate InBounds(width: int, height: int, p: Pos) {
    0 <= p.0 < width && 0 <= p.1 < height
  }

  /** p and q are different cells at Chebyshev distance 1. */
  predicate Adjacent(p: Pos, q: Pos) {
    p != q && -1 <= p.0 - q.0 <= 1 && -1 <= p.1 - q.1 <= 1
  }

  predicate Distinct(s: seq<Pos>) {
    forall i, j :: 0 <= i < j < |s| ==> s[i] != s[j]
  }

  /** Directions lists eight offsets, each once, and is closed under negation. */
  lemma DirectionsDistinct()
    ensures |Directions| == 8 && Distinct(Directions)
    ensures forall d :: d in Directions ==> (-d.0, -d.1) in Directions
  {
  }

  /** An offset is in Directions exactly when it is non-zero and of size at most 1 on each axis. */
  lemma InDirections(d: Pos)
    ensures d in Directions <==> -1 <= d.0 <= 1 && -1 <= d.1 <= 1 && d != (0, 0)
  {
  }

  /** p is one of the Directions away from (x, y) exactly when it is adjacent to it. */
  lemma OffsetAdjacent(p: Pos, x: int, y: int)
    ensures (p.0 - x, p.1 - y) in Directions <==> Adjacent(p, (x, y))
  {
  }

  /**
   * Each offset of ds applied to (x, y), keeping only the positions that
   * fall inside the width x height grid (the map-then-filter of getSiblings).
   */
  function Shifted(ds: seq<Pos>, width: int, height: int, x: int, y: int): (r: seq<Pos>)
    ensures |r| <= |ds|
    ensures forall p {:trigger p in r} :: p in r <==> InBounds(width, height, p) && (p.0 - x, p.1 - y) in ds
  {
    if ds == [] then []
    else
      var x2, y2 := x + ds[0].0, y + ds[0].1;
      var rest := Shifted(ds[1..], width, height, x, y);
      assert ds == [ds[0]] + ds[1..];
      if x2 < 0 || x2 >= width || y2 < 0 || y2 >= height then rest
      else [(x2, y2)] + rest
  }

  /** Distinct offsets give distinct positions. */
  lemma {:induction false} ShiftedDistinct(ds: seq<Pos>, width: int, height: int, x: int, y: int)
    requires Distinct(ds)
    ensures Distinct(Shifted(ds, width, height, x, y))
  {
    if ds != [] {
      var x2, y2 := x + ds[0].0, y + ds[0].1;
      var rest := Shifted(ds[1..], width, height, x, y);
      ShiftedDistinct(ds[1..], width, height, x, y);
      assert (x2, y2) !in rest;
    }
  }

  /** The in-bounds neighbours of cell (x, y), in the order of Directions. */
  function Siblings(width: int, height: int, x: int, y: int): (r: seq<Pos>)
    ensures |r| <= 8 && Distinct(r)
    ensures forall p {:trigger p in r} :: p in r <==> InBounds(width, height, p) && Adjacent(p, (x, y))
    ensures forall k :: 0 <= k < |r| ==> InBounds(width, height, r[k]) && Adjacent(r[k], (x, y))
  {
    DirectionsDistinct();
    ShiftedDistinct(Directions, width, height, x, y);
    var r := Shifted(Directions, width, height, x, y);
    assert forall p :: p in r <==> InBounds(width, height, p) && Adjacent(p, (x, y)) by {
      forall p
        ensures p in r <==> InBounds(width, height, p) && Adjacent(p, (x, y))
      {
        OffsetAdjacent(p, x, y);
      }
    }
    assert forall k :: 0 <= k < |r| ==> InBounds(width, height, r[k]) && Adjacent(r[k], (x, y)) by {
      forall k | 0 <= k < |r|
        ensures InBounds(width, height, r[k]) && Adjacent(r[k], (x, y))
      {
        assert r[k] in r;
      }
    }
    r
  }

  /** Neighbourhood is symmetric: q is a sibling of p exactly when p is one of q. */
  lemma SiblingsSymmetric(width: int, height: int, p: Pos, q: Pos)
    requires InBounds(width, height, p) && InBounds(width, height, q)
    ensures p in Siblings(width, height, q.0, q.1) <==> q in Siblings(width, height, p.0, p.1)
  {
  }

  /** How many of the positions ps (counted with repetition) lie in s. */
  function CountIn(s: set<Pos>, ps: seq<Pos>): (n: nat)
    ensures n <= |ps|
  {
    if ps == [] then 0
    else CountIn(s, ps[..|ps| - 1]) + (if ps[|ps| - 1] in s then 1 else 0)
  }

  /**
   * CountIn's defining step read at a prefix of ps: extending the prefix by
   * one position adds one exactly when that position is in s. It adds
   * nothing to CountIn itself; the per-sibling loop of NumberBlock uses it.
   */
  lemma CountInPrefix(s: set<Pos>, ps: seq<Pos>, k: int)
    requires 0 <= k < |ps|
    ensures CountIn(s, ps[..k + 1]) == CountIn(s, ps[..k]) + (if ps[k] in s then 1 else 0)
  {
    assert ps[..k + 1][..k] == ps[..k];
  }

  /** Over a list without repeats, CountIn is the size of the set it meets. */
  lemma {:induction false} CountInDistinct(s: set<Pos>, ps: seq<Pos>)
    requires Distinct(ps)
    ensures CountIn(s, ps) == |set p | p in ps && p in s|
  {
    if ps != [] {
      var init, last := ps[..|ps| - 1], ps[|ps| - 1];
      assert Distinct(init);
      CountInDistinct(s, init);
      var before := set p | p in init && p in s;
      var after := set p | p in ps && p in s;
      assert last !in init;
      assert ps == init + [last];
      if last in s {
        assert after == before + {last};
      } else {
        assert after == before;
      }
    }
  }

  /**
   * The number of mined siblings of (x, y) is the number of mined cells of
   * the grid at Chebyshev distance 1 from it.
   */
  lemma NeighbourMineCount(width: int, height: int, x: int, y: int, mined: set<Pos>)
    ensures CountIn(mined, Siblings(width, height, x, y))
         == |set p | p in mined && InBounds(width, height, p) && Adjacent(p, (x, y))|
  {
    var sibs := Siblings(width, height, x, y);
    CountInDistinct(mined, sibs);
    assert (set p | p in sibs && p in mined)
        == (set p | p in mined && InBounds(width, height, p) && Adjacent(p, (x, y)));
  }

  /**
   * Counting from 0, a non-mine block ends up with the number of mined cells
   * of the grid around it.
   */
  lemma NumberedFromZero(b: Block, mined: set<Pos>, width: int, height: int)
    requires !b.mine && b.adjacentMines == 0
    ensures Numbered(b, mined, width, height).adjacentMines
         == |set p | p in mined && InBounds(width, height, p) && Adjacent(p, (b.x, b.y))|
  {
    NeighbourMineCount(width, height, b.x, b.y, mined);
  }

  /** The cell is within one column or within one row of (ix, iy): no mine is drawn for it. */
  predicate InSafeBand(ix: int, iy: int, b: Block) {
    -1 <= ix - b.x <= 1 || -1 <= iy - b.y <= 1
  }

  /**
   * The body of the generateMines loop for one block: outside the safe band the
   * block's mine bit becomes the coin drawn for it; inside, the block is kept.
   */
  function Seed(ix: int, iy: int, b: Block, coin: bool): (r: Block)
    ensures r.(mine := b.mine) == b
    ensures InSafeBand(ix, iy, b) ==> r == b
    ensures !InSafeBand(ix, iy, b) ==> r.mine == coin
  {
    if -1 <= ix - b.x <= 1 then b
    else if -1 <= iy - b.y <= 1 then b
    else b.(mine := coin)
  }

  /**
   * The body of the updateNumbers loop for one block: a non-mine block's count
   * grows by the number of its in-bounds siblings in `mined`.
   */
  function Numbered(b: Block, mined: set<Pos>, width: int, height: int): (r: Block)
    ensures r.(adjacentMines := b.adjacentMines) == b
    ensures b.mine ==> r == b
    ensures !b.mine ==> b.adjacentMines <= r.adjacentMines <= b.adjacentMines + 8
  {
    if b.mine then b
    else b.(adjacentMines := b.adjacentMines + CountIn(mined, Siblings(width, height, b.x, b.y)))
  }

  /**
   * What expendZero may do to one block: leave it alone, or reveal it when it
   * was neither revealed nor flagged.
   */
  predicate RevealStep(before: Block, after: Block) {
    && after.x == before.x && after.y == before.y
    && after.mine == before.mine && after.flagged == before.flagged
    && after.adjacentMines == before.adjacentMines
    && (before.revealed ==> after.revealed)
    && (after.revealed && !before.revealed ==> !before.flagged)
  }

  lemma RevealStepTransitive(a: Block, b: Block, c: Block)
    requires RevealStep(a, b) && RevealStep(b, c)
    ensures RevealStep(a, c)
  {
  }

  /** onRightClick on one block: a revealed block stays; otherwise its flag flips. */
  function RightClicked(b: Block): (r: Block)
    ensures b.revealed ==> r == b
    ensures !b.revealed ==> r.flagged == !b.flagged && r.(flagged := b.flagged) == b
  {
    if b.revealed then b else b.(flagged := !b.flagged)
  }

  /** Two right clicks in a row restore the block. */
  lemma RightClickedTwice(b: Block)
    ensures RightClicked(RightClicked(b)) == b
  {
  }
}

=== FILE: gameplay.dfy ===
/**
 * The GamePlay class: one width x height grid of blocks, indexed state[y, x],
 * updated in place by mine generation, number counting, flood-fill reveal and
 * flagging. A block handed to a method in the source is named here by its
 * position (x, y); Valid() ties every stored coordinate to its index, so the
 * position and the block reference pick the same cell.
 */
module Game {
  import opened Board

  class GamePlay {
    const width: nat
    const height: nat
    const state: array2<Block>
    var mineGenerated: bool

    /** The grid has height rows of width blocks and state[y, x] records (x, y). */
    ghost predicate Valid()
      reads state
    {
      state.Length0 == height && state.Length1 == width &&
      forall y, x :: 0 <= y < height && 0 <= x < width ==> state[y, x].x == x && state[y, x].y == y
    }

    /** The positions of the blocks that hold a mine. */
    ghost function MinedCells(): (r: set<Pos>)
      reads state
      requires Valid()
      ensures forall p :: p in r ==> InBounds(width, height, p)
      ensures forall y, x :: 0 <= y < height && 0 <= x < width ==> ((x, y) in r <==> state[y, x].mine)
    {
      set y, x | 0 <= y < height && 0 <= x < width && state[y, x].mine :: (x, y)
    }

    /** The positions of the blocks not yet revealed. */
    ghost function Covered(): (r: set<Pos>)
      reads state
      requires Valid()
      ensures forall p :: p in r ==> InBounds(width, height, p)
      ensures forall y, x :: 0 <= y < height && 0 <= x < width ==> ((x, y) in r <==> !state[y, x].revealed)
    {
      set y, x | 0 <= y < height && 0 <= x < width && !state[y, x].revealed :: (x, y)
    }

    /**
     * The numbers on the board are consistent: before the first click there
     * are no mines and every count is 0; afterwards every non-mine block
     * counts its mined siblings.
     */
    ghost predicate Sound()
      reads this, state
      requires Valid()
    {
      if mineGenerated then
        (forall y, x :: 0 <= y < height && 0 <= x < width && !state[y, x].mine ==>
          state[y, x].adjacentMines == CountIn(MinedCells(), Siblings(width, height, x, y))) &&
        (forall y, x :: 0 <= y < height && 0 <= x < width && state[y, x].mine ==>
          state[y, x].adjacentMines == 0)
      else
        forall y, x :: 0 <= y < height && 0 <= x < width ==>
          !state[y, x].mine && state[y, x].adjacentMines == 0
    }

    /**
     * Once the mines exist, a consistent board shows on every non-mine block
     * the number of mined blocks at distance 1 from it.
     */
    lemma SoundCounts(x: int, y: int)
      requires Valid() && Sound() && mineGenerated
      requires InBounds(width, height, (x, y)) && !state[y, x].mine
      ensures state[y, x].adjacentMines
           == |set p | p in MinedCells() && InBounds(width, height, p) && Adjacent(p, (x, y))|
    {
      NeighbourMineCount(width, height, x, y, MinedCells());
    }

    /** Block p is revealed unless it is flagged. */
    ghost predicate Settled(p: Pos)
      reads state
      requires Valid() && InBounds(width, height, p)
    {
      !state[p.1, p.0].flagged ==> state[p.1, p.0].revealed
    }

    /** Every sibling of p is revealed unless it is flagged. */
    ghost predicate Cleared(p: Pos)
      reads state
      requires Valid() && InBounds(width, height, p)
    {
      forall q :: q in Siblings(width, height, p.0, p.1) ==> Settled(q)
    }

    /** Mines and counts left alone keep the numbers consistent. */
    twostate lemma NumbersKept()
      requires old(Valid()) && Valid()
      requires mineGenerated == old(mineGenerated)
      requires forall y, x :: 0 <= y < height && 0 <= x < width ==>
        state[y, x].mine == old(state[y, x].mine) && state[y, x].adjacentMines == old(state[y, x].adjacentMines)
      ensures MinedCells() == old(MinedCells())
      ensures old(Sound()) ==> Sound()
    {
      assert MinedCells() == old(MinedCells());
    }

    /** Revealing p, and hiding nothing, shrinks the set of covered blocks. */
    twostate lemma CoveredShrinks(p: Pos)
      requires old(Valid()) && Valid() && InBounds(width, height, p)
      requires forall y, x :: 0 <= y < height && 0 <= x < width ==> (old(state[y, x].revealed) ==> state[y, x].revealed)
      requires !old(state[p.1, p.0].revealed) && state[p.1, p.0].revealed
      ensures Covered() < old(Covered())
    {
      assert p in old(Covered()) && p !in Covered();
    }

    /** Mines drawn on an empty board and counted from 0 give consistent numbers. */
    twostate lemma GeneratedSound()
      requires old(Valid()) && Valid() && !old(mineGenerated) && mineGenerated
      requires forall y, x :: 0 <= y < height && 0 <= x < width ==>
        state[y, x] == Numbered(old(state[y, x]).(mine := state[y, x].mine), MinedCells(), width, height)
      ensures old(Sound()) ==> Sound()
    {
      if old(Sound()) {
        forall j, i | 0 <= j < height && 0 <= i < width && !state[j, i].mine
          ensures state[j, i].adjacentMines == CountIn(MinedCells(), Siblings(width, height, i, j))
        {
          var seeded := old(state[j, i]).(mine := state[j, i].mine);
          assert old(state[j, i].adjacentMines) == 0;
          assert seeded.x == i && seeded.y == j && seeded.adjacentMines == 0 && !seeded.mine;
        }
      }
    }

    constructor (width: nat, height: nat)
      ensures Valid() && fresh(state)
      ensures this.width == width && this.height == height && !mineGenerated
      ensures forall y, x :: 0 <= y < height && 0 <= x < width ==>
        state[y, x] == Block(x, y, false, false, false, 0)
      ensures Sound()
    {
      this.width := width;
      this.height := height;
      mineGenerated := false;
      state := new Block[height, width]((y, x) => Block(x, y, false, false, false, 0));
    }

    /**
     * Draws a mine bit for every block outside the band of rows and columns
     * within 1 of (ix, iy), then counts the numbers. flip(x, y) is the random
     * draw for block (x, y).
     */
    method GenerateMines(ix: int, iy: int, flip: (int, int) -> bool)
      requires Valid()
      modifies state
      ensures Valid()
      ensures forall y, x :: 0 <= y < height && 0 <= x < width ==>
        state[y, x] == Numbered(Seed(ix, iy, old(state[y, x]), flip(x, y)), MinedCells(), width, height)
      ensures forall y, x :: 0 <= y < height && 0 <= x < width && InSafeBand(ix, iy, old(state[y, x])) ==>
        state[y, x].mine == old(state[y, x].mine)
      ensures forall y, x :: 0 <= y < height && 0 <= x < width ==>
        state[y, x].(mine := old(state[y, x].mine), adjacentMines := old(state[y, x].adjacentMines)) == old(state[y, x])
    {
      var y := 0;
      while y < height
        invariant 0 <= y <= height
        invariant forall j, i :: 0 <= j < height && 0 <= i < width ==>
          state[j, i] == if j < y then Seed(ix, iy, old(state[j, i]), flip(i, j)) else old(state[j, i])
      {
        var x := 0;
        while x < width
          invariant 0 <= x <= width
          invariant forall j, i :: 0 <= j < height && 0 <= i < width ==>
            state[j, i] == if j < y || (j == y && i < x) then Seed(ix, iy, old(state[j, i]), flip(i, j)) else old(state[j, i])
        {
          var block := state[y, x];
          if -1 <= ix - block.x <= 1 {
          } else if -1 <= iy - block.y <= 1 {
          } else {
            state[y, x] := block.(mine := flip(x, y));
          }
          x := x + 1;
        }
        y := y + 1;
      }
      UpdateNumbers();
    }

    /**
     * Adds to every non-mine block's count the number of its mined siblings.
     * The counts are added to what is there, so they are right only when
     * they start at 0.
     */
    method UpdateNumbers()
      requires Valid()
      modifies state
      ensures Valid()
      ensures MinedCells() == old(MinedCells())
      ensures forall y, x :: 0 <= y < height && 0 <= x < width ==>
        state[y, x] == Numbered(old(state[y, x]), MinedCells(), width, height)
    {
      ghost var mined := MinedCells();
      var y := 0;
      while y < height
        invariant 0 <= y <= height
        invariant Valid()
        invariant forall j, i :: 0 <= j < height && 0 <= i < width ==> ((i, j) in mined <==> state[j, i].mine)
        invariant forall j, i :: 0 <= j < y && 0 <= i < width ==> state[j, i] == Numbered(old(state[j, i]), mined, width, height)
        invariant forall j, i :: y <= j < height && 0 <= i < width ==> state[j, i] == old(state[j, i])
      {
        NumberRow(y, mined);
        y := y + 1;
      }
      assert MinedCells() == mined;
    }

    /** The row callback of updateNumbers: numbers every block of row y. */
    method NumberRow(y: int, ghost mined: set<Pos>)
      requires Valid() && 0 <= y < height
      requires forall j, i :: 0 <= j < height && 0 <= i < width ==> ((i, j) in mined <==> state[j, i].mine)
      modifies state
      ensures Valid()
      ensures forall j, i :: 0 <= j < height && 0 <= i < width ==> ((i, j) in mined <==> state[j, i].mine)
      ensures forall i :: 0 <= i < width ==> state[y, i] == Numbered(old(state[y, i]), mined, width, height)
      ensures forall j, i :: 0 <= j < height && 0 <= i < width && j != y ==> state[j, i] == old(state[j, i])
    {
      var x := 0;
      while x < width
        invariant 0 <= x <= width
        invariant Valid()
        invariant forall j, i :: 0 <= j < height && 0 <= i < width ==> ((i, j) in mined <==> state[j, i].mine)
        invariant forall i :: 0 <= i < x ==> state[y, i] == Numbered(old(state[y, i]), mined, width, height)
        invariant forall i :: x <= i < width ==> state[y, i] == old(state[y, i])
        invariant forall j, i :: 0 <= j < height && 0 <= i < width && j != y ==> state[j, i] == old(state[j, i])
      {
        NumberBlock(x, y, mined);
        x := x + 1;
      }
    }

    /**
     * The loop body of updateNumbers for block (x, y): unless it is a mine,
     * one is added to its count for each sibling that holds a mine (mined
     * lists the mined positions).
     */
    method NumberBlock(x: int, y: int, ghost mined: set<Pos>)
      requires Valid() && InBounds(width, height, (x, y))
      requires forall j, i :: 0 <= j < height && 0 <= i < width ==> ((i, j) in mined <==> state[j, i].mine)
      modifies state
      ensures state[y, x] == Numbered(old(state[y, x]), mined, width, height)
      ensures forall j, i :: 0 <= j < height && 0 <= i < width && (j != y || i != x) ==> state[j, i] == old(state[j, i])
    {
      var block := state[y, x];
      if block.mine {
        return;
      }
      var siblings := Siblings(width, height, block.x, block.y);
      var k := 0;
      while k < |siblings|
        invariant 0 <= k <= |siblings|
        invariant state[y, x] == block.(adjacentMines := block.adjacentMines + CountIn(mined, siblings[..k]))
        invariant forall j, i :: 0 <= j < height && 0 <= i < width && (j != y || i != x) ==> state[j, i] == old(state[j, i])
      {
        var (sx, sy) := siblings[k];
        CountInPrefix(mined, siblings, k);
        assert state[sy, sx] == old(state[sy, sx]);
        if state[sy, sx].mine {
          state[y, x] := state[y, x].(adjacentMines := state[y, x].adjacentMines + 1);
        }
        k := k + 1;
      }
      assert siblings[..k] == siblings;
    }

    /**
     * Flood fill from block (x, y): when its count is 0, every sibling that
     * is neither revealed nor flagged is revealed and filled from in turn.
     */
    method ExpendZero(x: int, y: int)
      requires Valid() && InBounds(width, height, (x, y))
      modifies state
      ensures Valid()
      ensures forall j, i :: 0 <= j < height && 0 <= i < width ==> RevealStep(old(state[j, i]), state[j, i])
      ensures old(state[y, x].adjacentMines) != 0 ==>
        forall j, i :: 0 <= j < height && 0 <= i < width ==> state[j, i] == old(state[j, i])
      ensures state[y, x].adjacentMines == 0 ==> Cleared((x, y))
      ensures forall j, i ::
        (0 <= j < height && 0 <= i < width && !old(state[j, i].revealed) && state[j, i].revealed &&
         state[j, i].adjacentMines == 0) ==> Cleared((i, j))
      decreases Covered(), 1
    {
      if state[y, x].adjacentMines != 0 {
        return;
      }
      var siblings := Siblings(width, height, state[y, x].x, state[y, x].y);
      var k := 0;
      while k < |siblings|
        invariant 0 <= k <= |siblings|
        invariant Valid()
        invariant forall j, i :: 0 <= j < height && 0 <= i < width ==> RevealStep(old(state[j, i]), state[j, i])
        invariant forall n :: 0 <= n < k ==> Settled(siblings[n])
        invariant forall j, i ::
          (0 <= j < height && 0 <= i < width && !old(state[j, i].revealed) && state[j, i].revealed &&
           state[j, i].adjacentMines == 0) ==> Cleared((i, j))
      {
        RevealSibling(siblings[k]);
        k := k + 1;
      }
    }

    /**
     * The callback expendZero runs on each sibling p: a block neither
     * revealed nor flagged is revealed and filled from.
     */
    method RevealSibling(p: Pos)
      requires Valid() && InBounds(width, height, p)
      modifies state
      ensures Valid()
      ensures forall j, i :: 0 <= j < height && 0 <= i < width ==> RevealStep(old(state[j, i]), state[j, i])
      ensures Settled(p)
      ensures old(state[p.1, p.0].revealed) || old(state[p.1, p.0].flagged) ==>
        forall j, i :: 0 <= j < height && 0 <= i < width ==> state[j, i] == old(state[j, i])
      ensures forall j, i ::
        (0 <= j < height && 0 <= i < width && !old(state[j, i].revealed) && state[j, i].revealed &&
         state[j, i].adjacentMines == 0) ==> Cleared((i, j))
      decreases Covered(), 0
    {
      var (x, y) := p;
      if !state[y, x].revealed && !state[y, x].flagged {
        state[y, x] := state[y, x].(revealed := true);
        CoveredShrinks(p);
        ExpendZero(x, y);
      }
    }

    /**
     * The first-click step of onClick: mines are drawn around (x, y) and
     * counted, once per game. Only mine bits and counts change.
     */
    method MinesOnFirstClick(x: int, y: int, flip: (int, int) -> bool)
      requires Valid() && InBounds(width, height, (x, y))
      modifies this, state
      ensures Valid() && mineGenerated
      ensures old(mineGenerated) ==> forall j, i :: 0 <= j < height && 0 <= i < width ==> state[j, i] == old(state[j, i])
      ensures forall j, i :: 0 <= j < height && 0 <= i < width ==>
        state[j, i].(mine := old(state[j, i].mine), adjacentMines := old(state[j, i].adjacentMines)) == old(state[j, i])
      ensures !old(mineGenerated) ==> forall j, i :: 0 <= j < height && 0 <= i < width ==>
        state[j, i].mine == Seed(x, y, old(state[j, i]), flip(i, j)).mine
      ensures old(Sound()) ==> Sound()
    {
      if !mineGenerated {
        GenerateMines(x, y, flip);
        mineGenerated := true;
        GeneratedSound();
      }
    }

    /**
     * Reveal action on block (x, y). Mines are generated on the first click;
     * boom reports that the revealed block holds a mine.
     */
    method OnClick(x: int, y: int, flip: (int, int) -> bool) returns (boom: bool)
      requires Valid() && InBounds(width, height, (x, y))
      modifies this, state
      ensures Valid()
      ensures old(state[y, x].flagged) ==>
        !boom && mineGenerated == old(mineGenerated) &&
        forall j, i :: 0 <= j < height && 0 <= i < width ==> state[j, i] == old(state[j, i])
      ensures !old(state[y, x].flagged) ==> mineGenerated && state[y, x].revealed && boom == state[y, x].mine
      ensures old(mineGenerated) ==> mineGenerated && MinedCells() == old(MinedCells())
      ensures forall j, i :: 0 <= j < height && 0 <= i < width ==>
        state[j, i].flagged == old(state[j, i].flagged) &&
        (old(state[j, i].revealed) ==> state[j, i].revealed) &&
        (old(mineGenerated) ==> state[j, i].adjacentMines == old(state[j, i].adjacentMines))
      ensures !old(state[y, x].flagged) && !old(mineGenerated) ==>
        forall j, i :: 0 <= j < height && 0 <= i < width ==>
          state[j, i].mine == Seed(x, y, old(state[j, i]), flip(i, j)).mine
      ensures forall j, i :: 0 <= j < height && 0 <= i < width && !old(state[j, i].revealed) && state[j, i].revealed ==>
        !state[j, i].flagged
      ensures !old(state[y, x].flagged) && state[y, x].adjacentMines == 0 ==> Cleared((x, y))
      ensures forall j, i ::
        (0 <= j < height && 0 <= i < width && !old(state[j, i].revealed) && state[j, i].revealed &&
         state[j, i].adjacentMines == 0) ==> Cleared((i, j))
      ensures !old(state[y, x].flagged) && old(Sound()) && boom ==> Cleared((x, y))
      ensures !old(state[y, x].flagged) && !old(mineGenerated) && old(Sound()) ==> !boom
      ensures old(Sound()) ==> Sound()
    {
      if state[y, x].flagged {
        return false;
      }
      MinesOnFirstClick(x, y, flip);
      label Generated:
      state[y, x] := state[y, x].(revealed := true);
      boom := state[y, x].mine;
      label Revealed:
      ExpendZero(x, y);
      forall j, i | 0 <= j < height && 0 <= i < width
        ensures RevealStep(old@Generated(state[j, i]), state[j, i])
      {
        RevealStepTransitive(old@Generated(state[j, i]), old@Revealed(state[j, i]), state[j, i]);
      }
      NumbersKept@Generated();
    }

    /** Flag toggle on block (x, y); a revealed block cannot be flagged. */
    method OnRightClick(x: int, y: int)
      requires Valid() && InBounds(width, height, (x, y))
      modifies state
      ensures Valid()
      ensures state[y, x] == RightClicked(old(state[y, x]))
      ensures forall j, i :: 0 <= j < height && 0 <= i < width && (i, j) != (x, y) ==> state[j, i] == old(state[j, i])
      ensures old(Sound()) ==> Sound()
    {
      if !state[y, x].revealed {
        state[y, x] := state[y, x].(flagged := !state[y, x].flagged);
      }
      NumbersKept();
    }

    /** The first n rows laid end to end (state.flat() when n is height). */
    function Rows(n: int): (r: seq<Block>)
      reads state
      requires Valid() && 0 <= n <= height
      ensures |r| == n * width
      ensures forall b :: b in r <==> exists y, x :: 0 <= y < n && 0 <= x < width && b == state[y, x]
    {
      if n == 0 then []
      else
        var y := n - 1;
        var front, last := Rows(y), seq(width, i requires 0 <= i < width reads state => state[y, i]);
        assert |last| == width && forall i :: 0 <= i < width ==> last[i] == state[y, i];
        assert forall b :: b in last <==> exists x :: 0 <= x < width && b == state[y, x] by {
          forall b | b in last
            ensures exists x :: 0 <= x < width && b == state[y, x]
          {
            var k :| 0 <= k < |last| && last[k] == b;
            assert b == state[y, k];
          }
        }
        front + last
    }

    /**
     * checkGameState: nothing is decided before the mines exist or while a
     * block is neither revealed nor flagged; then a flag on a block without
     * a mine is a cheat, and otherwise the game is won.
     */
    function CheckGameState(): (v: Verdict)
      reads this, state
      requires Valid()
      ensures v != Undecided <==>
        mineGenerated && forall y, x :: 0 <= y < height && 0 <= x < width ==> state[y, x].revealed || state[y, x].flagged
      ensures v == Cheat <==>
        && mineGenerated
        && (forall y, x :: 0 <= y < height && 0 <= x < width ==> state[y, x].revealed || state[y, x].flagged)
        && exists y, x :: 0 <= y < height && 0 <= x < width && state[y, x].flagged && !state[y, x].mine
    {
      if !mineGenerated then Undecided
      else
        var blocks := Rows(height);
        if forall b :: b in blocks ==> b.revealed || b.flagged then
          if exists b :: b in blocks && b.flagged && !b.mine then Cheat else Win
        else Undecided
    }
  }
}
